=== FILE: README.md ===
# simplepaste, modelled in Dafny

simplepaste is a small paste service. A client POSTs bytes to `/paste/` and gets back a numeric id. A GET of `/paste/<id>` returns those bytes. Any other path serves a static index page. This project models the service's core as pure functions and proves properties about them:

- the two paste handlers, as functions from (writer, request or path, database) to (writer, database, log lines);
- the handler decorators: `ServeFile`, `LogHTTP`, `MustMethod` and `SwitchMethod`;
- the environment readers `EnvDefault` and `EnvDefaultInt64`, including a digit-by-digit model of `strconv.ParseInt(s, 10, 64)`;
- the wiring in `main`: configuration defaults, route registration, and routing between `/paste/` and the index page.

Everything the program gets from outside is an explicit input:

- The process environment is a map. A key is set exactly when it is present, even with an empty value.
- The file system is a map from path to contents.
- The database is an abstract `Store`: rows by id, plus the autoincrement high-water mark. Each statement step's failure is an injected `Faults` value.
- The outcome of `fmt.Sscanf` is a `ScanResult`. `ScanAgrees` constrains it on two kinds of path. A path that is exactly `/paste/` followed by an optionally signed decimal scans to that number when it fits in an int64. A path that ends at `/paste/`, or has a letter right after it, fails to scan.
- Go's random iteration order over the method table is a parameter `order`.
- Panics are `Err` results.

Files: `base.dfy` (bytes, options, results), `decimal.dfy` (the `%d` rendering and its inverse), `strconv.dfy`, `util.dfy`, `http.dfy` (request, response writer, handler type), `middleware.dfy`, `store.dfy`, `paste.dfy` (the handlers), `paste_laws.dfy` (properties that span several requests), `server.dfy` (the wiring).

Behaviour of the code worth knowing:

- The GET handler sets `Content-Type: text/plain` before it parses the id, so every GET answer carries that header: 200, 400, 404 and 500 alike.
- `SwitchMethod` builds its 405 prefix by writing each key followed by `, ` and then cutting the last two bytes. With an empty table those two bytes are the final `s ` of the fixed head, giving `Invalid Method: Expected method but instead got <m>`. `Middleware.RejectPrefixEmpty` states this.
- The POST handler answers 400 only when the body is `nil`. Go's HTTP server always supplies a non-nil body, so under the real server that branch is never taken; the model includes it.
- Bodies larger than the cap are cut short, not rejected. A size cap of zero or less stores an empty paste and never reads the body.
- When reading back the new id fails, the answer is 500 even though the row was already inserted.

## Model

| member | source | states |
|---|---|---|
| Decimal.FormatInt | main.go:130 | the `%d` text of an id is a minus sign exactly for negatives, then decimal digits only |
| Decimal.Digits | main.go:85 | the digits of a magnitude are non-empty, all decimal, without a leading zero, one digit exactly below ten |
| Decimal.DigitsValueOfDigits | main.go:130 | reading the digits of any natural number gives that number back |
| Decimal.FormatIntRoundTrip | main.go:130 | the decimal text of any id is an optionally signed digit string worth that id, so a client can recover the id from the POST answer |
| Decimal.FormatIntInjective | main.go:130 | distinct ids are answered with distinct texts |
| Decimal.DigitsValuePrefix | util/util.go:18 | a digit string is worth at least any of its prefixes, which is why the parser can stop at the first overflow |
| Strconv.Accumulate | util/util.go:18 | the digit loop succeeds exactly when the rest is all digits and the value fits in 64 unsigned bits, returns that value, and reports a range error for an all-digit value that is too large |
| Strconv.AccumulateSyntax | util/util.go:18 | from any point before the first non-digit, with the digits so far fitting in 64 bits, the loop ends in a syntax error, not a range error |
| Strconv.ParseSyntax | util/util.go:18 | the whole digit loop reports a syntax error whenever a non-digit comes before any overflow |
| Strconv.ParseUint64 | util/util.go:18 | a magnitude parses exactly when it is a non-empty digit string of value at most 2^64-1; empty input, or a non-digit reached before the value overflows, is a syntax error; an all-digit value above 2^64-1 is a range error |
| Strconv.ParseInt64 | util/util.go:18 | a value parses exactly when it is one optional sign plus digits and lies in the int64 range; empty input, a lone sign, or a non-digit reached before the magnitude overflows is a syntax error; a well-formed value outside the range is a range error |
| Strconv.ParseFormatRoundTrip | util/util.go:18 | parsing the decimal text of any int64 returns it |
| Util.EnvDefault | util/util.go:8-14 | a set variable's value is returned whatever it is, even empty; the default only when the variable is unset |
| Util.EnvDefaultInt64 | util/util.go:16-26 | unset gives the default; set gives the parsed value exactly when it is a valid signed base-10 int64; otherwise it aborts with the key, the value and the error: syntax for an empty value, a lone sign, or a non-digit reached before the magnitude overflows; range for a well-formed value outside the int64 range. It never falls back to the default |
| Util.EnvDefaultInt64ViaEnvDefault | util/util.go:8-26 | the integer reader is the text reader with the default rendered in decimal, then parsed, with a parse error turned into the abort: both readers share one set/unset rule |
| Util.EnvDefaultInt64Rendered | util/util.go:16-22 | a variable holding the decimal text of an int64 yields that int64 |
| Middleware.ServeFile | middleware/middleware.go:11-19 | construction fails exactly when the file cannot be read; afterwards every request gets the file's bytes written once, and the state is unchanged |
| Middleware.ServeFileIgnoresRequest | middleware/middleware.go:16-18 | the file handler's answer is the same for any two requests |
| Middleware.LogHTTP | middleware/middleware.go:21-26 | the wrapped handler's writer and state are exactly the inner handler's on the same inputs; the log gains the `method host path` line in front of the inner handler's lines |
| Middleware.MustMethod | middleware/middleware.go:28-38 | the expected method delegates unchanged; any other method gets 405 with `Method must be <expected>`, without echoing the received method, and the state is unchanged |
| Middleware.MustMethodIsOneEntrySwitch | middleware/middleware.go:28-63 | the single-method guard acts as a one-entry method table: the same handler for the expected method; for any other method the same 405 status, state and log, only the body text differs |
| Middleware.SwitchMethod | middleware/middleware.go:40-63 | a method in the table runs exactly that entry's handler on the same writer, request and state; any other method gets 405 with the prefix fixed at construction followed by the received method, and the state is unchanged |
| Middleware.RejectPrefix | middleware/middleware.go:41-52 | the 405 prefix built once by writing each key plus `, ` and cutting two bytes; it has no contract of its own, and RejectPrefixShape and RejectPrefixEmpty state its exact text for non-empty and empty tables |
| Middleware.RejectMethod | middleware/middleware.go:57-60 | the rejection's two writes set status 405 unless a status was already written, and append prefix then method |
| Middleware.ConcatEachIsJoin | middleware/middleware.go:46-49 | writing each key followed by the separator equals the separator-joined keys plus one trailing separator |
| Middleware.RejectPrefixShape | middleware/middleware.go:41-52 | for a non-empty table, the 405 prefix is the fixed head, the keys joined by `, ` with no trailing separator, and ` but instead got ` |
| Middleware.RejectPrefixEmpty | middleware/middleware.go:43-52 | for an empty table, the truncation removes the head's final `s ` instead of a separator |
| Middleware.JoinOffset | middleware/middleware.go:46-49 | each joined element occurs in the joined text at a known offset |
| Middleware.RejectionNamesKey | middleware/middleware.go:46-60 | every key of the table appears in the 405 body sent for any method missing from it |
| PasteStore.Fetch | main.go:40-42 | the select by primary key finds a row exactly when the id is stored, and returns that row's content |
| PasteStore.Insert | main.go:30-31 | an insert fails only once the high-water mark is the largest int64; otherwise it assigns an id above every id issued before, adds exactly that row, and keeps the schema invariant |
| Paste.Kept | main.go:107 | the kept bytes are a prefix of the body, of length min(body length, cap), and empty when the cap is not positive |
| Paste.ReadLimited | main.go:107-112 | a capped read fails exactly when the stream fails before the cap is reached; otherwise it yields the kept prefix |
| Paste.Lookup | main.go:73-97 | a query failure gives 500 `Internal Server Error` plus one log line; a missing id gives 404 `Paste id <id> not found`; a scan failure gives 500; otherwise 200 with exactly the stored bytes; the database is unchanged in every case |
| Paste.Get | main.go:63-98 | every GET answer carries `Content-Type: text/plain`; an unscannable path gives 400 `Unable to parse <path> because: <reason>`; no GET changes the database |
| Paste.Exec | main.go:114-120 | an injected insert failure is an error; otherwise the store performs the insert |
| Paste.Post | main.go:99-131 | a nil body gives 400 `Request Body is missing`; a failed read gives 503 `Error reading request body`; a failed insert gives 500; the store is unchanged in all three cases; a successful insert stores exactly the kept prefix under the next id and answers that id in decimal, or 500 if reading the id back fails; earlier pastes keep their content; the store invariant is preserved |
| PasteLaws.PostSucceeded | main.go:99-131 | a 200 answer to POST means the insert and the id read-back succeeded; the answer is the new id and that id holds the kept prefix |
| PasteLaws.PathOfIdScans | main.go:67 | the path `/paste/` followed by an answered id scans back to that id |
| PasteLaws.PostThenGet | main.go:63-131 | after a successful POST, a GET of `/paste/` plus the answer returns 200 with exactly the first `pasteMaxSize` posted bytes |
| PasteLaws.PostIdsIncrease | main.go:114-130 | two successful POSTs answer ids that parse as int64, the second strictly larger |
| PasteLaws.PostIdFresh | main.go:114-130 | the answered id belongs to no earlier paste, and every earlier paste keeps its content |
| PasteLaws.UnissuedIdNotFound | main.go:82-87 | an id never issued gets 404 naming the id when the query itself succeeds |
| Server.LoadConfig | main.go:16-21 | the database path and listen address are their variables or the defaults; the size cap is the default when unset and the parsed value when set; startup stops only for a bad size value |
| Server.DefaultConfig | main.go:17-21 | with an empty environment the settings are `simplepaste.db`, 51200 and `127.0.0.1:8080` |
| Server.PasteMethods | main.go:62-132 | the method table under `/paste/` has exactly the keys GET and POST |
| Server.MethodOrderEnumerates | main.go:62 | both iteration orders of the two-entry table list each method exactly once |
| Server.PasteRoute | main.go:60-62 | the `/paste/` handler is the access logger around the GET/POST method table; it has no contract of its own, and ServePaste and ServeWrongMethod state what it answers for GET, POST and any other method |
| Server.Startup | main.go:15-62 | startup succeeds exactly when the configuration parses and the index file is readable; `/` serves the file through the logger; `/paste/` dispatches GET and POST through the logger |
| Server.Serve | main.go:59-60 | routing sends every path beginning with `/paste/` to the paste handler and every other path to the index handler; it has no contract of its own, and ServePaste, ServeWrongMethod, ServeIndex and ServeMalformedId state what each route answers |
| Server.ServePaste | main.go:60-132 | under `/paste/`, GET runs the fetch handler and POST runs the create handler with the configured cap, each after one access log line |
| Server.ServeWrongMethod | main.go:60-62 | any other method under `/paste/` gets 405 with `Invalid Method: Expected methods GET, POST` or `POST, GET`, then ` but instead got <method>`, and the store is untouched |
| Server.ServeIndex | main.go:59 | every other path gets the index page loaded at startup, for any method, and the store is untouched |
| Server.ServeMalformedId | main.go:63-71 | a GET of `/paste/` alone, or of `/paste/` followed by a letter (as in `/paste/abc`), gets 400 `Unable to parse <path> because: <reason>` with the text/plain header, and the store is untouched |
| Server.ServeRoundTrip | main.go:59-132 | through routing, logging and dispatch, a 200 answer to a POST turned into a GET path returns the first `pasteMaxSize` posted bytes |

## Left out

- HTTP server internals (main.go:134-135 and `net/http`): listening, `ServeMux` path cleaning, and the redirect from `/paste` to `/paste/` are not modelled. `Server.Serve` routes by the `/paste/` prefix only. Content-Type sniffing and Content-Length are not modelled, nor is the log line about a second `WriteHeader`.
- Opening the database, creating the schema and preparing the statements (main.go:23-57): their startup panics are not modelled. The store starts as an abstract `Store`.
- The SQL engine: `PasteStore.Insert` gives out exactly one more than the high-water mark. It reports `database or disk is full` once the largest int64 id is used.
- Paste.Lookup: a failure inside `rows.Next` makes Go answer 404, the same as a missing row. The model has no separate outcome for it.
- Paste.Get: `fmt.Sscanf`'s grammar is not modelled, and neither is the text of its errors. `ScanAgrees` pins the scan only for `/paste/` followed by an optional sign and digits with nothing after, and for `/paste/` followed by nothing or by a letter. It makes no claim about paths like `/paste/12abc`, `/paste/ 12` or `/paste/1_0`.
- Http.SetHeader: Go does not send header changes made after `WriteHeader`, but the model updates the map regardless. This program never sets a header late.
- Util.EnvDefaultInt64: the panic is recorded as the key, the value and the error kind (syntax or range), which is `Strconv.ParseInt64`'s error. The rendered message, with strconv's quoting of the value, is not modelled.
- Middleware.ServeFile: every `os.ReadFile` failure is modelled as a path absent from the file-system map.
- `log.Printf` timestamps are not modelled. Log lines are recorded as text in order.
- Closing the request body and the result rows (main.go:80, 105) has no observable effect here.
- Concurrency: each request is one pure step over the store. Distinct ids under concurrent inserts are the database's guarantee.

=== FILE: base.dfy ===
/** Byte strings, optional values and results shared by every other module.

    Go's `string` and `[]byte` are both byte sequences; here a byte is a
    character below 256, so that Go string literals read as Dafny literals. */
module Base {

  /** One byte of a Go string or byte slice. */
  type byte = c: char | c as int < 256

  type Bytes = seq<byte>

  const MinInt64: int := -0x8000_0000_0000_0000
  const MaxInt64: int := 0x7FFF_FFFF_FFFF_FFFF
  const MaxUint64: int := 0xFFFF_FFFF_FFFF_FFFF

  /** Go's `int64` range. */
  predicate IsInt64(n: int) {
    MinInt64 <= n <= MaxInt64
  }

  datatype Option<+T> = None | Some(value: T) {
    function GetOr(default: T): T {
      match this
      case Some(v) => v
      case None => default
    }
  }

  datatype Result<+T, +E> = Ok(value: T) | Err(error: E)

  function Min(a: int, b: int): int {
    if a <= b then a else b
  }
}

=== FILE: decimal.dfy ===
/** Base-10 text: the rendering Go's `%d` verb gives an integer, and the
    value of an optionally signed digit string. */
module Decimal {
  import opened Base

  predicate IsDigit(c: byte) {
    '0' <= c <= '9'
  }

  predicate AllDigits(s: Bytes) {
    forall i | 0 <= i < |s| :: IsDigit(s[i])
  }

  function DigitChar(d: int): (c: byte)
    requires 0 <= d < 10
    ensures IsDigit(c)
  {
    ('0' as int + d) as char
  }

  function DigitValue(c: byte): (d: int)
    requires IsDigit(c)
    ensures 0 <= d < 10
  {
    c as int - '0' as int
  }

  /** The number a string of decimal digits denotes, most significant first. */
  function DigitsValue(s: Bytes): nat
    requires AllDigits(s)
  {
    if s == [] then 0 else DigitsValue(s[..|s| - 1]) * 10 + DigitValue(s[|s| - 1])
  }

  /** The digits of `n` without leading zeros (`"0"` for zero). */
  function Digits(n: nat): (s: Bytes)
    ensures |s| > 0 && AllDigits(s)
    ensures |s| > 1 ==> s[0] != '0'
    ensures n < 10 <==> |s| == 1
  {
    if n < 10 then [DigitChar(n)] else Digits(n / 10) + [DigitChar(n % 10)]
  }

  /** Go's `%d` rendering of an integer: a minus sign for negatives, then the digits. */
  function FormatInt(n: int): (s: Bytes)
    ensures |s| > 0
    ensures n < 0 <==> s[0] == '-'
    ensures AllDigits(if n < 0 then s[1..] else s)
  {
    if n < 0 then "-" + Digits(-n) else Digits(n)
  }

  /** The digits after one optional leading `+` or `-`, as `strconv.ParseInt` splits them. */
  function Unsigned(s: Bytes): (t: Bytes)
    ensures |t| <= |s|
  {
    if |s| > 0 && (s[0] == '+' || s[0] == '-') then s[1..] else s
  }

  /** An optional sign followed by at least one decimal digit, and nothing else. */
  predicate IsSignedDecimal(s: Bytes) {
    |Unsigned(s)| > 0 && AllDigits(Unsigned(s))
  }

  function SignedValue(s: Bytes): int
    requires IsSignedDecimal(s)
  {
    if s[0] == '-' then -(DigitsValue(Unsigned(s)) as int) else DigitsValue(Unsigned(s))
  }

  lemma {:induction false} DigitsValueOfDigits(n: nat)
    ensures DigitsValue(Digits(n)) == n
  {
    if n >= 10 {
      var s := Digits(n);
      assert s[..|s| - 1] == Digits(n / 10);
      DigitsValueOfDigits(n / 10);
    }
  }

  /** Reading back the `%d` rendering of any integer yields that integer. */
  lemma FormatIntRoundTrip(n: int)
    ensures IsSignedDecimal(FormatInt(n))
    ensures SignedValue(FormatInt(n)) == n
  {
    if n < 0 {
      assert Unsigned(FormatInt(n)) == Digits(-n);
      DigitsValueOfDigits(-n);
    } else {
      DigitsValueOfDigits(n);
    }
  }

  /** Distinct integers render as distinct text. */
  lemma FormatIntInjective(a: int, b: int)
    ensures FormatInt(a) == FormatInt(b) ==> a == b
  {
    FormatIntRoundTrip(a);
    FormatIntRoundTrip(b);
  }

  /** A digit string is worth at least as much as any of its prefixes. */
  lemma {:induction false} DigitsValuePrefix(s: Bytes, i: nat)
    requires i <= |s|
    ensures AllDigits(s) ==> AllDigits(s[..i]) && DigitsValue(s[..i]) <= DigitsValue(s)
    decreases |s| - i
  {
    if i < |s| {
      DigitsValuePrefix(s[..|s| - 1], i);
      assert s[..|s| - 1][..i] == s[..i];
    } else {
      assert s[..i] == s;
    }
  }
}

=== FILE: http.dfy ===
/** The slice of Go's `net/http` the handlers touch: a request, a response
    writer that accumulates status, headers and body, and handlers that thread
    an explicit state (the database, for the paste handlers) and a log. */
module Http {
  import opened Base

  /** The request body: absent (`nil`), or a stream that delivers `data` and
      then ends cleanly, or fails when `fails` holds. */
  datatype Body = NoBody | Stream(data: Bytes, fails: bool)

  datatype Request = Request(verb: Bytes, host: Bytes, path: Bytes, body: Body)

  type Header = map<Bytes, Bytes>

  /** What has been written to an `http.ResponseWriter` so far. */
  datatype Writer = Writer(status: Option<int>, header: Header, body: Bytes)

  const Fresh: Writer := Writer(None, map[], [])

  const StatusOK: int := 200
  const StatusBadRequest: int := 400
  const StatusNotFound: int := 404
  const StatusMethodNotAllowed: int := 405
  const StatusInternalServerError: int := 500
  const StatusServiceUnavailable: int := 503

  /** The status a client receives: a handler that writes nothing yields 200. */
  function StatusOf(w: Writer): int {
    w.status.GetOr(StatusOK)
  }

  /** `rw.Header().Set(key, value)`. */
  function SetHeader(w: Writer, key: Bytes, value: Bytes): (w': Writer)
    ensures w'.header.Keys == w.header.Keys + {key} && w'.header[key] == value
    ensures forall k | k in w.header && k != key :: w'.header[k] == w.header[k]
    ensures w'.status == w.status && w'.body == w.body
  {
    w.(header := w.header[key := value])
  }

  /** `rw.WriteHeader(code)`: only the first status written takes effect. */
  function WriteHeader(w: Writer, code: int): (w': Writer)
    ensures StatusOf(w') == (if w.status.Some? then StatusOf(w) else code)
    ensures w'.status.Some? && w'.header == w.header && w'.body == w.body
  {
    if w.status.Some? then w else w.(status := Some(code))
  }

  /** `rw.Write(data)`: commits status 200 unless a status was already written. */
  function Write(w: Writer, data: Bytes): (w': Writer)
    ensures w'.status == Some(StatusOf(w))
    ensures w'.body == w.body + data && w'.header == w.header
  {
    w.(status := Some(StatusOf(w)), body := w.body + data)
  }

  /** Two writes in a row send the same bytes as one write of both. */
  lemma WriteTwice(w: Writer, a: Bytes, b: Bytes)
    ensures Write(Write(w, a), b) == Write(w, a + b)
  {
  }

  /** `w'` is `w` after a handler answered `code` with `data`: the status is
      `code` unless one was already committed, and `data` is appended. */
  predicate Replied(w: Writer, w': Writer, code: int, data: Bytes) {
    && w'.status == Some(w.status.GetOr(code))
    && w'.header == w.header
    && w'.body == w.body + data
  }

  /** `WriteHeader(code)` followed by `Write(data)`. */
  function Reply(w: Writer, code: int, data: Bytes): (w': Writer)
    ensures Replied(w, w', code, data)
  {
    Write(WriteHeader(w, code), data)
  }

  /** The effect of one handler invocation: the writer, the new state, and
      the lines it logged, in order. */
  datatype Step<S> = Step(w: Writer, state: S, log: seq<Bytes>)

  /** An `http.HandlerFunc` over a state of type `S`. */
  type Handler<!S> = (Writer, Request, S) -> Step<S>
}

=== FILE: middleware.dfy ===
/** Handler decorators (middleware/middleware.go): a constant file responder,
    an access logger, single-method and table-driven method dispatch. Each is
    generic in the state `S` the wrapped handlers thread through. */
module Middleware {
  import opened Base
  import opened Http

  /** File contents by path; a path that is absent cannot be read. */
  type FileSystem = map<Bytes, Bytes>

  const Separator: Bytes := ", "
  const RejectHead: Bytes := "Invalid Method: Expected methods "
  const RejectTail: Bytes := " but instead got "

  /** Reads the file once, when the handler is built; an unreadable file
      aborts construction (`Err(path)`). The handler then writes the same
      bytes for every request and leaves the state alone. */
  function ServeFile<S(==,!new)>(fs: FileSystem, path: Bytes): (r: Result<Handler<S>, Bytes>)
    ensures r.Ok? <==> path in fs
    ensures r.Err? ==> r.error == path
    ensures r.Ok? ==> forall w, req, s :: r.value(w, req, s) == Step(Write(w, fs[path]), s, [])
  {
    if path !in fs then Err(path)
    else
      var data := fs[path];
      Ok((w: Writer, req: Request, s: S) => Step(Write(w, data), s, []))
  }

  /** The file handler's answer does not depend on the request. */
  lemma ServeFileIgnoresRequest<S(!new)>(fs: FileSystem, path: Bytes, w: Writer, req1: Request, req2: Request, s: S)
    requires path in fs
    ensures ServeFile<S>(fs, path).value(w, req1, s) == ServeFile<S>(fs, path).value(w, req2, s)
  {
  }

  /** The line `LogHTTP` logs: method, host and path separated by spaces. */
  function AccessLine(r: Request): Bytes {
    r.verb + " " + r.host + " " + r.path
  }

  /** Logs the access line, then delegates once, with the same writer,
      request and state: the response and the state are the inner handler's. */
  function LogHTTP<S(==,!new)>(f: Handler<S>): (h: Handler<S>)
    ensures forall w, r, s :: h(w, r, s).w == f(w, r, s).w && h(w, r, s).state == f(w, r, s).state
    ensures forall w, r, s :: h(w, r, s).log == [AccessLine(r)] + f(w, r, s).log
  {
    (w: Writer, r: Request, s: S) =>
      var inner := f(w, r, s);
      Step(inner.w, inner.state, [AccessLine(r)] + inner.log)
  }

  /** Delegates when the method is exactly `expected`; otherwise answers 405
      with `Method must be <expected>`, without echoing the received method. */
  function MustMethod<S(==,!new)>(expected: Bytes, f: Handler<S>): (h: Handler<S>)
    ensures forall w, r: Request, s :: r.verb == expected ==> h(w, r, s) == f(w, r, s)
    ensures forall w, r: Request, s :: r.verb != expected ==>
              h(w, r, s) == Step(Reply(w, StatusMethodNotAllowed, "Method must be " + expected), s, [])
  {
    var invalidMethodResponse := "Method must be " + expected;
    (w: Writer, r: Request, s: S) =>
      if r.verb != expected then Step(Reply(w, StatusMethodNotAllowed, invalidMethodResponse), s, [])
      else f(w, r, s)
  }

  /** `order` lists every key of `keys` exactly once: one possible iteration
      order of a Go map with those keys. */
  predicate Enumerates(order: seq<Bytes>, keys: set<Bytes>) {
    && (forall i | 0 <= i < |order| :: order[i] in keys)
    && (forall k | k in keys :: k in order)
    && (forall i, j | 0 <= i < j < |order| :: order[i] != order[j])
  }

  /** Each element followed by `sep`, as the construction loop writes them. */
  function ConcatEach(xs: seq<Bytes>, sep: Bytes): Bytes {
    if xs == [] then [] else xs[0] + sep + ConcatEach(xs[1..], sep)
  }

  /** The elements with `sep` between consecutive ones. */
  function Join(xs: seq<Bytes>, sep: Bytes): Bytes {
    if xs == [] then []
    else if |xs| == 1 then xs[0]
    else xs[0] + sep + Join(xs[1..], sep)
  }

  /** `bytes.Buffer.Truncate(n)`: keep the first `n` bytes. */
  function Truncate(b: Bytes, n: int): (t: Bytes)
    requires 0 <= n <= |b|
    ensures |t| == n && t == b[..n]
  {
    b[..n]
  }

  /** `MustMethod(m, f)` behaves as a one-entry `SwitchMethod` table: the
      same handler for `m`, and for any other method the same status, state
      and log, only the 405 text differs. */
  lemma MustMethodIsOneEntrySwitch<S(!new)>(m: Bytes, f: Handler<S>, w: Writer, r: Request, s: S)
    ensures Enumerates([m], map[m := f].Keys)
    ensures r.verb == m ==> MustMethod(m, f)(w, r, s) == SwitchMethod(map[m := f], [m])(w, r, s)
    ensures r.verb != m ==>
              var must := MustMethod(m, f)(w, r, s);
              var switched := SwitchMethod(map[m := f], [m])(w, r, s);
              && must.state == switched.state && must.log == switched.log
              && StatusOf(must.w) == StatusOf(switched.w)
              && Replied(w, must.w, StatusMethodNotAllowed, "Method must be " + m)
  {
    assert Enumerates([m], map[m := f].Keys);
  }

  /** The 405 body up to the received method, built once by `SwitchMethod`:
      every key followed by the separator, then the buffer shortened by the
      separator's length. */
  function RejectPrefix(order: seq<Bytes>): Bytes {
    var buf := RejectHead + ConcatEach(order, Separator);
    Truncate(buf, |buf| - |Separator|) + RejectTail
  }

  /** The 405 branch of `SwitchMethod`: the status, the prebuilt prefix,
      then the received method, in two writes. */
  function RejectMethod(w: Writer, prefix: Bytes, verb: Bytes): (w': Writer)
    ensures Replied(w, w', StatusMethodNotAllowed, prefix + verb)
  {
    var w1 := WriteHeader(w, StatusMethodNotAllowed);
    WriteTwice(w1, prefix, verb);
    Write(Write(w1, prefix), verb)
  }

  /** Dispatches on the request method through `switches`; a method with no
      entry gets 405 and the prefix fixed at construction followed by the
      method received. `order` is the map's iteration order. */
  function SwitchMethod<S(==,!new)>(switches: map<Bytes, Handler<S>>, order: seq<Bytes>): (h: Handler<S>)
    requires Enumerates(order, switches.Keys)
    ensures forall w, r: Request, s :: r.verb in switches ==> h(w, r, s) == switches[r.verb](w, r, s)
    ensures forall w, r: Request, s :: r.verb !in switches ==>
              h(w, r, s) == Step(RejectMethod(w, RejectPrefix(order), r.verb), s, [])
    ensures forall w, r: Request, s :: r.verb !in switches ==>
              Replied(w, h(w, r, s).w, StatusMethodNotAllowed, RejectPrefix(order) + r.verb)
  {
    var invalidMethodResponse := RejectPrefix(order);
    (w: Writer, r: Request, s: S) =>
      if r.verb in switches then switches[r.verb](w, r, s)
      else
        Step(RejectMethod(w, invalidMethodResponse, r.verb), s, [])
  }

  lemma {:induction false} ConcatEachIsJoin(xs: seq<Bytes>, sep: Bytes)
    requires |xs| > 0
    ensures ConcatEach(xs, sep) == Join(xs, sep) + sep
  {
    if |xs| > 1 {
      ConcatEachIsJoin(xs[1..], sep);
    }
  }

  /** Join-then-truncate removes exactly the final separator when the table
      has keys; with no keys it cuts the last two bytes of the fixed head. */
  lemma RejectPrefixShape(order: seq<Bytes>)
    requires |order| > 0
    ensures RejectPrefix(order) == RejectHead + Join(order, Separator) + RejectTail
  {
    ConcatEachIsJoin(order, Separator);
    var joined := RejectHead + Join(order, Separator);
    var buf := RejectHead + ConcatEach(order, Separator);
    assert buf == joined + Separator;
    assert buf[..|buf| - |Separator|] == joined;
  }

  /** With no keys, the truncation eats the final `s ` of the fixed head. */
  lemma RejectPrefixEmpty()
    ensures RejectPrefix([]) == "Invalid Method: Expected method" + RejectTail
  {
  }

  /** Where the `j`-th element sits inside the joined text. */
  lemma {:induction false} JoinOffset(xs: seq<Bytes>, sep: Bytes, j: nat) returns (p: nat)
    requires j < |xs|
    ensures p + |xs[j]| <= |Join(xs, sep)|
    ensures Join(xs, sep)[p..p + |xs[j]|] == xs[j]
  {
    if j == 0 {
      p := 0;
      assert Join(xs, sep)[..|xs[0]|] == xs[0];
    } else {
      var q := JoinOffset(xs[1..], sep, j - 1);
      var head := xs[0] + sep;
      assert Join(xs, sep) == head + Join(xs[1..], sep);
      p := |head| + q;
      assert Join(xs, sep)[p..p + |xs[j]|] == Join(xs[1..], sep)[q..q + |xs[j]|];
    }
  }

  /** Every key of a non-empty table appears in the 405 body sent for any
      method the table lacks. */
  lemma RejectionNamesKey(order: seq<Bytes>, keys: set<Bytes>, verb: Bytes, k: Bytes) returns (p: nat)
    requires Enumerates(order, keys) && k in keys
    ensures p + |k| <= |RejectPrefix(order) + verb|
    ensures (RejectPrefix(order) + verb)[p..p + |k|] == k
  {
    var j :| 0 <= j < |order| && order[j] == k;
    RejectPrefixShape(order);
    var q := JoinOffset(order, Separator, j);
    p := |RejectHead| + q;
    var body := RejectPrefix(order) + verb;
    assert body == RejectHead + Join(order, Separator) + (RejectTail + verb);
    assert body[p..p + |k|] == Join(order, Separator)[q..q + |k|];
  }
}

=== FILE: paste.dfy ===
/** The two paste handlers registered under `/paste/` (main.go): GET fetches a
    paste by the id in the path, POST stores the request body and answers with
    the new id. Database failures are explicit inputs (`Faults`), and so is the
    outcome of scanning the id out of the path. */
module Paste {
  import opened Base
  import opened Decimal
  import opened Http
  import opened PasteStore

  /** The error each statement step reports, if it fails: running the select,
      scanning the selected row, running the insert, reading back its id. */
  datatype Faults = Faults(query: Option<Bytes>, scan: Option<Bytes>,
                           insert: Option<Bytes>, lastInsertId: Option<Bytes>)

  const NoFaults: Faults := Faults(None, None, None, None)

  /** The database the handlers' prepared statements talk to. */
  datatype Db = Db(store: Store, faults: Faults)

  /** The outcome of `fmt.Sscanf(path, "/paste/%d", &id)`. */
  datatype ScanResult = Scanned(id: int) | ScanFailed(reason: Bytes)

  type Scanner = Bytes -> ScanResult

  const PastePrefix: Bytes := "/paste/"
  const ContentType: Bytes := "Content-Type"
  const TextPlain: Bytes := "text/plain"
  const InternalError: Bytes := "Internal Server Error"
  const MissingBody: Bytes := "Request Body is missing"
  const ReadError: Bytes := "Error reading request body"

  /** A server-side log line: a fixed lead, the id when there is one, the error. */
  function ErrorLine(lead: Bytes, err: Bytes): Bytes {
    lead + ": " + err
  }

  const QueryErrorLead: Bytes := "[ERROR] Error querying for paste id "
  // Written as two literals: the verifier does not establish that every
  // character of a literal this long is below 256 in a single step.
  const ScanErrorLead: Bytes := "[ERROR] Error scanning paste content" + " for paste id "
  const InsertErrorLead: Bytes := "[ERROR] Error inserting content"
  const LastIdErrorLead: Bytes := "[ERROR] Error fetching last insert ID"

  /** The 400 body for a path whose id does not scan. */
  function ParseFailure(path: Bytes, reason: Bytes): Bytes {
    "Unable to parse " + path + " because: " + reason
  }

  /** The 404 body for an id with no row. */
  function NotFound(id: int): Bytes {
    "Paste id " + FormatInt(id) + " not found"
  }

  predicate IsLetter(c: byte) {
    'a' <= c <= 'z' || 'A' <= c <= 'Z'
  }

  /** What is known of the scan: the id lands in an `int64`; a path that is
      exactly the prefix followed by an optionally signed decimal yields that
      number when it fits and an error when it does not; a path that ends at
      the prefix, or has a letter right after it, is an error. Other paths (a
      suffix after the digits, spaces, underscores) are left unconstrained. */
  predicate ScanAgrees(path: Bytes, scanned: ScanResult) {
    // `PastePrefix <= path` is spelled out as a slice in both clauses: the
    // solver handles the slice equality more cheaply than the prefix relation
    && (scanned.Scanned? ==> IsInt64(scanned.id))
    && (|PastePrefix| <= |path| && path[..|PastePrefix|] == PastePrefix && IsSignedDecimal(path[|PastePrefix|..]) ==>
          var n := SignedValue(path[|PastePrefix|..]);
          if IsInt64(n) then scanned == Scanned(n) else scanned.ScanFailed?)
    && (|PastePrefix| <= |path| && path[..|PastePrefix|] == PastePrefix && (|path| == |PastePrefix| || IsLetter(path[|PastePrefix|])) ==>
          scanned.ScanFailed?)
  }

  /** The writer after the GET handler's first statement. */
  function PlainText(w: Writer): Writer {
    SetHeader(w, ContentType, TextPlain)
  }

  /** The prefix of the submitted bytes a paste keeps: at most `limit` bytes,
      none when `limit` is not positive. */
  function Kept(data: Bytes, limit: int): (k: Bytes)
    ensures |k| == if limit <= 0 then 0 else Min(|data|, limit)
    ensures k <= data
  {
    if limit <= 0 then [] else data[..Min(|data|, limit)]
  }

  /** The stream fails before `limit` bytes have been delivered, so a reader
      capped at `limit` bytes sees the failure. */
  predicate ReadFails(body: Body, limit: int)
    requires body.Stream?
  {
    0 < limit && |body.data| < limit && body.fails
  }

  /** `io.ReadAll(io.LimitReader(body, limit))`: `None` on a read error. A
      limit that is not positive ends the read before the stream is touched;
      reaching the limit ends it before a later failure could surface. */
  function ReadLimited(body: Body, limit: int): (r: Option<Bytes>)
    requires body.Stream?
    ensures r.None? <==> ReadFails(body, limit)
    ensures r.Some? ==> r.value == Kept(body.data, limit)
  {
    if limit <= 0 then Some([])
    else if |body.data| >= limit then Some(body.data[..limit])
    else if body.fails then None
    else Some(body.data)
  }

  /** The GET handler once the id has been scanned: the select for `id`,
      then the scan of the row it returns, answered on `w`. */
  function Lookup(w: Writer, id: int, db: Db): (r: Step<Db>)
    ensures r.state == db
    ensures db.faults.query.Some? ==>
              Replied(w, r.w, StatusInternalServerError, InternalError) && |r.log| == 1
    ensures db.faults.query.None? && id !in db.store.rows ==>
              Replied(w, r.w, StatusNotFound, NotFound(id)) && r.log == []
    ensures db.faults.query.None? && id in db.store.rows && db.faults.scan.Some? ==>
              Replied(w, r.w, StatusInternalServerError, InternalError) && |r.log| == 1
    ensures db.faults.query.None? && id in db.store.rows && db.faults.scan.None? ==>
              Replied(w, r.w, StatusOK, db.store.rows[id]) && r.log == []
  {
    if db.faults.query.Some? then
      Step(Reply(w, StatusInternalServerError, InternalError), db,
           [ErrorLine(QueryErrorLead + FormatInt(id), db.faults.query.value)])
    else
      match Fetch(db.store, id)
      case None =>
        Step(Reply(w, StatusNotFound, NotFound(id)), db, [])
      case Some(content) =>
        if db.faults.scan.Some? then
          Step(Reply(w, StatusInternalServerError, InternalError), db,
               [ErrorLine(ScanErrorLead + FormatInt(id), db.faults.scan.value)])
        else
          Step(Write(w, content), db, [])
  }

  /** The GET handler: mark the answer as plain text, scan the id out of the
      path, then look it up. */
  function Get(w: Writer, path: Bytes, scanned: ScanResult, db: Db): (r: Step<Db>)
    ensures r.state == db
    ensures ContentType in r.w.header && r.w.header[ContentType] == TextPlain
    ensures scanned.ScanFailed? ==>
              Replied(PlainText(w), r.w, StatusBadRequest, ParseFailure(path, scanned.reason)) && r.log == []
    ensures scanned.Scanned? ==> r == Lookup(PlainText(w), scanned.id, db)
  {
    var w1 := PlainText(w);
    match scanned
    case ScanFailed(reason) =>
      Step(Reply(w1, StatusBadRequest, ParseFailure(path, reason)), db, [])
    case Scanned(id) =>
      Lookup(w1, id, db)
  }

  /** Running the insert statement: the injected failure, or the store's own insert. */
  function Exec(db: Db, content: Bytes): (r: Result<(Store, int), Bytes>)
    ensures db.faults.insert.Some? ==> r.Err?
    ensures db.faults.insert.None? ==> r == Insert(db.store, content)
  {
    if db.faults.insert.Some? then Err(db.faults.insert.value) else Insert(db.store, content)
  }

  /** The body was present and read without error. */
  predicate BodyRead(body: Body, maxSize: int) {
    body.Stream? && !ReadFails(body, maxSize)
  }

  /** The insert ran: the body was read and the insert statement succeeded. */
  predicate Inserted(body: Body, maxSize: int, db: Db) {
    BodyRead(body, maxSize) && db.faults.insert.None? && db.store.lastId < MaxInt64
  }

  /** Read the body capped at `maxSize` bytes, insert it, answer the new id. */
  function Post(w: Writer, body: Body, maxSize: int, db: Db): (r: Step<Db>)
    ensures r.state.faults == db.faults
    ensures body.NoBody? ==> r.state == db && Replied(w, r.w, StatusBadRequest, MissingBody)
    ensures body.Stream? && ReadFails(body, maxSize) ==>
              r.state == db && Replied(w, r.w, StatusServiceUnavailable, ReadError)
    ensures BodyRead(body, maxSize) && !Inserted(body, maxSize, db) ==>
              r.state == db && Replied(w, r.w, StatusInternalServerError, InternalError) && |r.log| == 1
    ensures Inserted(body, maxSize, db) ==>
              var id := db.store.lastId + 1;
              && r.state.store == Store(db.store.rows[id := Kept(body.data, maxSize)], id)
              && (db.faults.lastInsertId.Some? ==>
                    Replied(w, r.w, StatusInternalServerError, InternalError) && |r.log| == 1)
              && (db.faults.lastInsertId.None? ==> Replied(w, r.w, StatusOK, FormatInt(id)) && r.log == [])
    ensures Valid(db.store) ==> Valid(r.state.store)
    ensures Valid(db.store) ==>
              forall id | id in db.store.rows :: id in r.state.store.rows && r.state.store.rows[id] == db.store.rows[id]
  {
    match body
    case NoBody =>
      Step(Reply(w, StatusBadRequest, MissingBody), db, [])
    case Stream(_, _) =>
      match ReadLimited(body, maxSize)
      case None =>
        // 503 for a failed read of the request body
        Step(Reply(w, StatusServiceUnavailable, ReadError), db, [])
      case Some(content) =>
        match Exec(db, content)
        case Err(e) =>
          Step(Reply(w, StatusInternalServerError, InternalError), db, [ErrorLine(InsertErrorLead, e)])
        case Ok((store', id)) =>
          var db' := db.(store := store');
          if db.faults.lastInsertId.Some? then
            // the row is already in the table
            Step(Reply(w, StatusInternalServerError, InternalError), db',
                 [ErrorLine(LastIdErrorLead, db.faults.lastInsertId.value)])
          else
            Step(Write(w, FormatInt(id)), db', [])
  }
}

=== FILE: paste_laws.dfy ===
/** Properties relating several paste requests: what POST stores, GET returns;
    ids only grow; an id never issued is not found. */
module PasteLaws {
  import opened Base
  import opened Decimal
  import opened Strconv
  import opened Http
  import opened PasteStore
  import opened Paste

  /** On a fresh writer, a 200 from POST means the body was read, the row was
      inserted and its id read back; the answer is that id in decimal. */
  lemma PostSucceeded(body: Body, maxSize: int, db: Db)
    requires StatusOf(Post(Fresh, body, maxSize, db).w) == StatusOK
    ensures Inserted(body, maxSize, db) && db.faults.lastInsertId.None?
    ensures Post(Fresh, body, maxSize, db).w.body == FormatInt(db.store.lastId + 1)
    ensures Post(Fresh, body, maxSize, db).state.store.rows[db.store.lastId + 1] == Kept(body.data, maxSize)
  {
  }

  /** The path a client builds from a POST answer scans back to the id. */
  lemma PathOfIdScans(id: int, scanned: ScanResult)
    requires IsInt64(id)
    requires ScanAgrees(PastePrefix + FormatInt(id), scanned)
    ensures scanned == Scanned(id)
  {
    var path := PastePrefix + FormatInt(id);
    assert path[|PastePrefix|..] == FormatInt(id);
    FormatIntRoundTrip(id);
  }

  /** Round trip: after a successful POST, a GET of `/paste/` followed by the
      answer returns exactly the stored prefix of the submitted bytes, the
      first `maxSize` of them, whatever the database reports for unrelated steps. */
  lemma PostThenGet(data: Bytes, fails: bool, maxSize: int, db: Db, faults: Faults, scanned: ScanResult)
    requires Valid(db.store)
    requires StatusOf(Post(Fresh, Stream(data, fails), maxSize, db).w) == StatusOK
    requires ScanAgrees(PastePrefix + Post(Fresh, Stream(data, fails), maxSize, db).w.body, scanned)
    requires faults.query.None? && faults.scan.None?
    ensures var posted := Post(Fresh, Stream(data, fails), maxSize, db);
            var got := Get(Fresh, PastePrefix + posted.w.body, scanned, posted.state.(faults := faults));
            && StatusOf(got.w) == StatusOK
            && got.w.body == Kept(data, maxSize)
            && got.state.store == posted.state.store
  {
    var body := Stream(data, fails);
    var posted := Post(Fresh, body, maxSize, db);
    PostSucceeded(body, maxSize, db);
    var id := db.store.lastId + 1;
    assert IsInt64(id);
    PathOfIdScans(id, scanned);
    var db' := posted.state.(faults := faults);
    assert id in db'.store.rows;
    var got := Lookup(PlainText(Fresh), id, db');
    assert Replied(PlainText(Fresh), got.w, StatusOK, Kept(data, maxSize));
  }

  /** Two successful POSTs in a row answer ids that parse as `int64`s, the
      second strictly larger than the first. */
  lemma PostIdsIncrease(b1: Body, b2: Body, maxSize: int, db: Db, faults: Faults)
    requires Valid(db.store)
    requires StatusOf(Post(Fresh, b1, maxSize, db).w) == StatusOK
    requires StatusOf(Post(Fresh, b2, maxSize, Post(Fresh, b1, maxSize, db).state.(faults := faults)).w) == StatusOK
    ensures var first := Post(Fresh, b1, maxSize, db);
            var second := Post(Fresh, b2, maxSize, first.state.(faults := faults));
            && ParseInt64(first.w.body).Ok?
            && ParseInt64(second.w.body).Ok?
            && ParseInt64(first.w.body).value < ParseInt64(second.w.body).value
  {
    var first := Post(Fresh, b1, maxSize, db);
    PostSucceeded(b1, maxSize, db);
    var db1 := first.state.(faults := faults);
    PostSucceeded(b2, maxSize, db1);
    assert db1.store.lastId == db.store.lastId + 1;
    ParseFormatRoundTrip(db.store.lastId + 1);
    ParseFormatRoundTrip(db1.store.lastId + 1);
  }

  /** The id a successful POST answers is not the id of any earlier paste,
      and every earlier paste keeps its content. */
  lemma PostIdFresh(body: Body, maxSize: int, db: Db)
    requires Valid(db.store)
    requires StatusOf(Post(Fresh, body, maxSize, db).w) == StatusOK
    ensures ParseInt64(Post(Fresh, body, maxSize, db).w.body).Ok?
    ensures ParseInt64(Post(Fresh, body, maxSize, db).w.body).value !in db.store.rows
    ensures forall id | id in db.store.rows :: Post(Fresh, body, maxSize, db).state.store.rows[id] == db.store.rows[id]
  {
    PostSucceeded(body, maxSize, db);
    ParseFormatRoundTrip(db.store.lastId + 1);
  }

  /** An id the store never issued (not positive, or past the high-water
      mark) is answered 404 naming the id, when the select itself succeeds. */
  lemma UnissuedIdNotFound(w: Writer, path: Bytes, id: int, db: Db)
    requires Valid(db.store)
    requires id < 1 || id > db.store.lastId
    requires db.faults.query.None?
    ensures Replied(PlainText(w), Get(w, path, Scanned(id), db).w, StatusNotFound, NotFound(id))
  {
    assert id !in db.store.rows;
  }
}

=== FILE: server.dfy ===
/** The program's wiring (main.go): configuration from the environment, the
    index page served at `/`, and the paste handlers under `/paste/`, each
    wrapped in the access logger, the paste pair behind method dispatch. */
module Server {
  import opened Base
  import opened Decimal
  import opened Util
  import opened Http
  import opened Middleware
  import opened PasteStore
  import opened Paste
  import opened PasteLaws

  const DbPathKey: Bytes := "SIMPLEPASTE_DB_PATH"
  const MaxPasteSizeKey: Bytes := "SIMPLEPASTE_MAX_PASTE_SIZE"
  const ListenAddressKey: Bytes := "SIMPLEPASTE_LISTEN_ADDRESS"

  const DefaultDbPath: Bytes := "simplepaste.db"
  /** 50 KiB. */
  const DefaultMaxPasteSize: int := 50 * 1024
  const DefaultListenAddress: Bytes := "127.0.0.1:8080"

  const IndexPath: Bytes := "www/index.html"
  const MethodGet: Bytes := "GET"
  const MethodPost: Bytes := "POST"

  datatype Config = Config(dbPath: Bytes, maxPasteSize: int, listenAddress: Bytes)

  /** Why the program stops before serving. */
  datatype StartupError = BadConfig(panic: DecodePanic) | UnreadableFile(path: Bytes)

  /** The three settings, read in program order; a malformed paste size stops
      the program before the listen address is read. */
  function LoadConfig(env: Env): (r: Result<Config, DecodePanic>)
    ensures r.Ok? <==> MaxPasteSizeKey !in env || EnvDefaultInt64(env, MaxPasteSizeKey, DefaultMaxPasteSize).Ok?
    ensures r.Ok? ==> r.value.dbPath == EnvDefault(env, DbPathKey, DefaultDbPath)
    ensures r.Ok? ==> r.value.listenAddress == EnvDefault(env, ListenAddressKey, DefaultListenAddress)
    ensures r.Ok? && MaxPasteSizeKey !in env ==> r.value.maxPasteSize == DefaultMaxPasteSize
    ensures r.Ok? && MaxPasteSizeKey in env ==> r.value.maxPasteSize == SignedValue(env[MaxPasteSizeKey])
    ensures r.Err? ==> r.error.key == MaxPasteSizeKey
  {
    var dbPath := EnvDefault(env, DbPathKey, DefaultDbPath);
    match EnvDefaultInt64(env, MaxPasteSizeKey, DefaultMaxPasteSize)
    case Err(p) => Err(p)
    case Ok(maxPasteSize) => Ok(Config(dbPath, maxPasteSize, EnvDefault(env, ListenAddressKey, DefaultListenAddress)))
  }

  /** With nothing set, every setting takes its default. */
  lemma DefaultConfig()
    ensures LoadConfig(map[]) == Ok(Config(DefaultDbPath, DefaultMaxPasteSize, DefaultListenAddress))
  {
  }

  /** The GET closure: the path's id comes from `scan`. */
  function GetHandler(scan: Scanner): (h: Handler<Db>)
    ensures forall w, r: Request, db :: h(w, r, db) == Get(w, r.path, scan(r.path), db)
  {
    (w: Writer, r: Request, db: Db) => Get(w, r.path, scan(r.path), db)
  }

  /** The POST closure, capturing the configured size cap. */
  function PostHandler(maxPasteSize: int): (h: Handler<Db>)
    ensures forall w, r: Request, db :: h(w, r, db) == Post(w, r.body, maxPasteSize, db)
  {
    (w: Writer, r: Request, db: Db) => Post(w, r.body, maxPasteSize, db)
  }

  function PasteMethods(scan: Scanner, maxPasteSize: int): (m: map<Bytes, Handler<Db>>)
    ensures m.Keys == {MethodGet, MethodPost}
  {
    map[MethodGet := GetHandler(scan), MethodPost := PostHandler(maxPasteSize)]
  }

  /** The two orders Go may iterate the two-entry method table in. */
  predicate MethodOrder(order: seq<Bytes>) {
    order == [MethodGet, MethodPost] || order == [MethodPost, MethodGet]
  }

  /** The running server: its configuration and the handler of each route. */
  datatype App = App(config: Config, index: Handler<Db>, paste: Handler<Db>)

  /** The handler registered for `/paste/`: the access logger around the
      method table. */
  function PasteRoute(scan: Scanner, maxPasteSize: int, order: seq<Bytes>): Handler<Db>
    requires MethodOrder(order)
  {
    LogHTTP(SwitchMethod(PasteMethods(scan, maxPasteSize), order))
  }

  /** Everything `main` does before listening: read the configuration, then
      load the index page, aborting on either failure. `order` is the
      iteration order of the method table. */
  function Startup(env: Env, fs: FileSystem, scan: Scanner, order: seq<Bytes>): (r: Result<App, StartupError>)
    requires MethodOrder(order)
    ensures r.Ok? <==> LoadConfig(env).Ok? && IndexPath in fs
    ensures LoadConfig(env).Err? ==> r == Err(BadConfig(LoadConfig(env).error))
    ensures LoadConfig(env).Ok? && IndexPath !in fs ==> r == Err(UnreadableFile(IndexPath))
    ensures r.Ok? ==> r.value.config == LoadConfig(env).value
    ensures r.Ok? ==> forall w, q: Request, db ::
              r.value.index(w, q, db) == LogHTTP(ServeFile(fs, IndexPath).value)(w, q, db)
    ensures r.Ok? ==> forall w, q: Request, db ::
              r.value.paste(w, q, db) == PasteRoute(scan, r.value.config.maxPasteSize, order)(w, q, db)
  {
    match LoadConfig(env)
    case Err(p) => Err(BadConfig(p))
    case Ok(config) =>
      match ServeFile<Db>(fs, IndexPath)
      case Err(path) => Err(UnreadableFile(path))
      case Ok(index) => Ok(App(config, LogHTTP(index), PasteRoute(scan, config.maxPasteSize, order)))
  }

  /** Routing: the `/paste/` subtree goes to the paste handlers, every other
      path to the index page. */
  function Serve(app: App, w: Writer, r: Request, db: Db): Step<Db> {
    if PastePrefix <= r.path then app.paste(w, r, db) else app.index(w, r, db)
  }

  /** `Startup` succeeds. */
  predicate Starts(env: Env, fs: FileSystem, scan: Scanner, order: seq<Bytes>) {
    MethodOrder(order) && Startup(env, fs, scan, order).Ok?
  }

  /** The app a successful `Startup` yields. */
  function Running(env: Env, fs: FileSystem, scan: Scanner, order: seq<Bytes>): App
    requires Starts(env, fs, scan, order)
  {
    Startup(env, fs, scan, order).value
  }

  /** The method table is a valid dispatch table for either iteration order. */
  lemma MethodOrderEnumerates(scan: Scanner, maxPasteSize: int, order: seq<Bytes>)
    requires MethodOrder(order)
    ensures Enumerates(order, PasteMethods(scan, maxPasteSize).Keys)
  {
  }

  /** A paste request reaches the paste handler matching its method, and
      the access line is logged first. */
  lemma ServePaste(env: Env, fs: FileSystem, scan: Scanner, order: seq<Bytes>, w: Writer, r: Request, db: Db)
    requires Starts(env, fs, scan, order)
    requires PastePrefix <= r.path
    ensures r.verb == MethodGet ==>
              var got := Get(w, r.path, scan(r.path), db);
              Serve(Running(env, fs, scan, order), w, r, db) == Step(got.w, got.state, [AccessLine(r)] + got.log)
    ensures r.verb == MethodPost ==>
              var posted := Post(w, r.body, Running(env, fs, scan, order).config.maxPasteSize, db);
              Serve(Running(env, fs, scan, order), w, r, db) == Step(posted.w, posted.state, [AccessLine(r)] + posted.log)
  {
  }

  /** Any other method on `/paste/` is answered 405, naming the two accepted
      methods in the table's iteration order and then the method received;
      the store is untouched. */
  lemma ServeWrongMethod(env: Env, fs: FileSystem, scan: Scanner, order: seq<Bytes>, w: Writer, r: Request, db: Db)
    requires Starts(env, fs, scan, order)
    requires PastePrefix <= r.path
    requires r.verb != MethodGet && r.verb != MethodPost
    ensures var listed := if order == [MethodGet, MethodPost] then "GET, POST" else "POST, GET";
            Replied(w, Serve(Running(env, fs, scan, order), w, r, db).w, StatusMethodNotAllowed,
                    "Invalid Method: Expected methods " + listed + " but instead got " + r.verb)
    ensures Serve(Running(env, fs, scan, order), w, r, db).state == db
    ensures Serve(Running(env, fs, scan, order), w, r, db).log == [AccessLine(r)]
  {
    MethodOrderEnumerates(scan, Running(env, fs, scan, order).config.maxPasteSize, order);
    RejectPrefixShape(order);
    var listed: Bytes := if order == [MethodGet, MethodPost] then "GET, POST" else "POST, GET";
    assert Join(order, Separator) == listed;
  }

  /** Every path outside `/paste/` gets the index page loaded at startup,
      for any method, with the store untouched. */
  lemma ServeIndex(env: Env, fs: FileSystem, scan: Scanner, order: seq<Bytes>, w: Writer, r: Request, db: Db)
    requires Starts(env, fs, scan, order)
    requires !(PastePrefix <= r.path)
    ensures Replied(w, Serve(Running(env, fs, scan, order), w, r, db).w, StatusOK, fs[IndexPath])
    ensures Serve(Running(env, fs, scan, order), w, r, db).state == db
    ensures Serve(Running(env, fs, scan, order), w, r, db).log == [AccessLine(r)]
  {
  }

  /** A GET under `/paste/` with nothing after the prefix, or a letter right
      after it, is answered 400 naming the path, with the store untouched. */
  lemma ServeMalformedId(env: Env, fs: FileSystem, scan: Scanner, order: seq<Bytes>, w: Writer, r: Request, db: Db)
    requires Starts(env, fs, scan, order)
    requires r.verb == MethodGet && PastePrefix <= r.path
    requires |r.path| == |PastePrefix| || IsLetter(r.path[|PastePrefix|])
    requires ScanAgrees(r.path, scan(r.path))
    ensures scan(r.path).ScanFailed?
    ensures Replied(PlainText(w), Serve(Running(env, fs, scan, order), w, r, db).w,
                    StatusBadRequest, ParseFailure(r.path, scan(r.path).reason))
    ensures Serve(Running(env, fs, scan, order), w, r, db).state == db
  {
    ServePaste(env, fs, scan, order, w, r, db);
  }

  /** End to end: a 200 answer to a POST under `/paste/`, appended to
      `/paste/`, is a path whose GET answers 200 with the first
      `maxPasteSize` bytes that were posted. */
  lemma ServeRoundTrip(env: Env, fs: FileSystem, scan: Scanner, order: seq<Bytes>,
                       post: Request, get: Request, db: Db, faults: Faults)
    requires Starts(env, fs, scan, order)
    requires Valid(db.store)
    requires post.verb == MethodPost && PastePrefix <= post.path && post.body.Stream?
    requires StatusOf(Serve(Running(env, fs, scan, order), Fresh, post, db).w) == StatusOK
    requires get.verb == MethodGet && get.path == PastePrefix + Serve(Running(env, fs, scan, order), Fresh, post, db).w.body
    requires ScanAgrees(get.path, scan(get.path))
    requires faults.query.None? && faults.scan.None?
    ensures var stored := Serve(Running(env, fs, scan, order), Fresh, post, db).state.(faults := faults);
            && StatusOf(Serve(Running(env, fs, scan, order), Fresh, get, stored).w) == StatusOK
            && Serve(Running(env, fs, scan, order), Fresh, get, stored).w.body == Kept(post.body.data, Running(env, fs, scan, order).config.maxPasteSize)
  {
    var maxPasteSize := Running(env, fs, scan, order).config.maxPasteSize;
    ServePaste(env, fs, scan, order, Fresh, post, db);
    var posted := Post(Fresh, post.body, maxPasteSize, db);
    var stored := posted.state.(faults := faults);
    assert PastePrefix <= get.path by {
      assert get.path[..|PastePrefix|] == PastePrefix;
    }
    ServePaste(env, fs, scan, order, Fresh, get, stored);
    PostThenGet(post.body.data, post.body.fails, maxPasteSize, db, faults, scan(get.path));
  }
}

=== FILE: store.dfy ===
/** The `pastes` table (main.go): an integer primary key declared
    `autoincrement` and a non-null content column, reached through two
    statements, a select by id and an insert. The database engine itself is
    abstract: rows by id plus the highest id ever issued. */
module PasteStore {
  import opened Base

  /** `rows` holds the pastes by id; `lastId` is the autoincrement high-water
      mark, the largest id ever handed out (0 before the first insert). */
  datatype Store = Store(rows: map<int, Bytes>, lastId: int)

  const Empty: Store := Store(map[], 0)

  /** What the schema guarantees: every id is a positive `int64` no larger
      than the high-water mark. */
  predicate Valid(st: Store) {
    && 0 <= st.lastId <= MaxInt64
    && forall id | id in st.rows :: 1 <= id <= st.lastId
  }

  /** The error an autoincrement table reports once the largest `int64` id is used. */
  const FullMessage: Bytes := "database or disk is full"

  /** `select content from pastes where id = ? limit 1`. */
  function Fetch(st: Store, id: int): (r: Option<Bytes>)
    ensures r.Some? <==> id in st.rows
    ensures r.Some? ==> r.value == st.rows[id]
  {
    if id in st.rows then Some(st.rows[id]) else None
  }

  /** `insert into pastes(content) values(?)`, returning the new store and the
      id it assigned: one past the high-water mark, so never an id seen before. */
  function Insert(st: Store, content: Bytes): (r: Result<(Store, int), Bytes>)
    ensures r.Err? <==> st.lastId >= MaxInt64
    ensures r.Ok? ==> r.value.1 > st.lastId && r.value.0.lastId == r.value.1
    ensures r.Ok? ==> r.value.0.rows == st.rows[r.value.1 := content]
    ensures Valid(st) && r.Ok? ==> Valid(r.value.0) && IsInt64(r.value.1) && r.value.1 >= 1
    ensures Valid(st) && r.Ok? ==> forall id | id in st.rows :: id < r.value.1
  {
    if st.lastId >= MaxInt64 then Err(FullMessage)
    else
      var id := st.lastId + 1;
      Ok((Store(st.rows[id := content], id), id))
  }
}

=== FILE: strconv.dfy ===
/** Go's `strconv.ParseInt(s, 10, 64)`, which the environment reader uses,
    written as the library's digit loop: the same cut-off test, the same order
    of checks, and therefore the same choice between a syntax and a range error. */
module Strconv {
  import opened Base
  import opened Decimal

  /** The two failures `strconv` reports for base-10 input. */
  datatype NumErr = ErrSyntax | ErrRange

  /** The smallest `n` for which `n * 10` no longer fits in a `uint64`. */
  const Cutoff: int := MaxUint64 / 10 + 1

  /** `2^63`: the magnitude of the most negative `int64`. */
  const Int64Magnitude: int := MaxInt64 + 1

  /** The digit loop meets the non-digit `s[j]` before its value overflows:
      every byte before `j` is a digit and together they fit in a `uint64`. */
  predicate SyntaxErrorAt(s: Bytes, j: int) {
    0 <= j < |s| && !IsDigit(s[j]) && AllDigits(s[..j]) && DigitsValue(s[..j]) <= MaxUint64
  }

  /** The digit loop stops at a non-digit, not at an overflow. */
  predicate HasSyntaxError(s: Bytes) {
    exists j | 0 <= j < |s| :: SyntaxErrorAt(s, j)
  }

  /** The digit loop of `ParseUint`, resumed at index `i` with `n` the value of `s[..i]`. */
  function Accumulate(s: Bytes, i: nat, n: nat): (r: Result<nat, NumErr>)
    requires i <= |s| && AllDigits(s[..i]) && n == DigitsValue(s[..i]) && n <= MaxUint64
    ensures r.Ok? <==> AllDigits(s) && DigitsValue(s) <= MaxUint64
    ensures r.Ok? ==> r.value == DigitsValue(s)
    ensures AllDigits(s) && DigitsValue(s) > MaxUint64 ==> r == Err(ErrRange)
    decreases |s| - i
  {
    if i == |s| then
      assert s[..i] == s;
      Ok(n)
    else
      var c := s[i];
      if !IsDigit(c) then
        Err(ErrSyntax)
      else
        assert s[..i + 1][..i] == s[..i];
        // the cut-off test comes first, so n * 10 is only formed when it fits
        var overflow := n >= Cutoff || n * 10 + DigitValue(c) > MaxUint64;
        if overflow then
          // the value of s[..i+1] already exceeds MaxUint64
          DigitsValuePrefix(s, i + 1);
          Err(ErrRange)
        else
          Accumulate(s, i + 1, n * 10 + DigitValue(c))
  }

  /** A loop resumed before the offending byte reports a syntax error. */
  lemma {:induction false} AccumulateSyntax(s: Bytes, i: nat, n: nat, j: nat)
    requires i <= |s| && AllDigits(s[..i]) && n == DigitsValue(s[..i]) && n <= MaxUint64
    requires i <= j && SyntaxErrorAt(s, j)
    ensures Accumulate(s, i, n) == Err(ErrSyntax)
    decreases j - i
  {
    if i < j {
      DigitsValuePrefix(s[..j], i + 1);
      assert s[..j][..i + 1] == s[..i + 1];
      assert s[..i + 1][..i] == s[..i];
      AccumulateSyntax(s, i + 1, n * 10 + DigitValue(s[i]), j);
    }
  }

  /** The whole loop reports a syntax error whenever a non-digit comes before any overflow. */
  lemma ParseSyntax(s: Bytes)
    ensures HasSyntaxError(s) ==> Accumulate(s, 0, 0) == Err(ErrSyntax)
  {
    if HasSyntaxError(s) {
      var j: nat :| SyntaxErrorAt(s, j);
      AccumulateSyntax(s, 0, 0, j);
    }
  }

  /** `strconv.ParseUint(s, 10, 64)`. */
  function ParseUint64(s: Bytes): (r: Result<nat, NumErr>)
    ensures r.Ok? <==> |s| > 0 && AllDigits(s) && DigitsValue(s) <= MaxUint64
    ensures r.Ok? ==> r.value == DigitsValue(s)
    ensures s == [] ==> r == Err(ErrSyntax)
    ensures |s| > 0 && AllDigits(s) && DigitsValue(s) > MaxUint64 ==> r == Err(ErrRange)
    ensures HasSyntaxError(s) ==> r == Err(ErrSyntax)
  {
    if s == [] then Err(ErrSyntax)
    else
      ParseSyntax(s);
      Accumulate(s, 0, 0)
  }

  /** `strconv.ParseInt(s, 10, 64)`: strip one sign, parse the magnitude as a
      `uint64` (which reports `MaxUint64` alongside a range error), then check
      the magnitude against the `int64` bounds for that sign. */
  function ParseInt64(s: Bytes): (r: Result<int, NumErr>)
    ensures r.Ok? <==> IsSignedDecimal(s) && IsInt64(SignedValue(s))
    ensures r.Ok? ==> r.value == SignedValue(s)
    ensures IsSignedDecimal(s) && !IsInt64(SignedValue(s)) ==> r == Err(ErrRange)
    ensures s == [] ==> r == Err(ErrSyntax)
    ensures |s| > 0 && Unsigned(s) == [] ==> r == Err(ErrSyntax)
    ensures HasSyntaxError(Unsigned(s)) ==> r == Err(ErrSyntax)
  {
    if s == [] then Err(ErrSyntax)
    else
      var neg := s[0] == '-';
      var magnitude := ParseUint64(Unsigned(s));
      if magnitude == Err(ErrSyntax) then Err(ErrSyntax)
      else
        var un := if magnitude.Ok? then magnitude.value else MaxUint64;
        if !neg && un >= Int64Magnitude then Err(ErrRange)
        else if neg && un > Int64Magnitude then Err(ErrRange)
        else Ok(if neg then -un else un)
  }

  /** Parsing the `%d` rendering of any `int64` gives that value back. */
  lemma ParseFormatRoundTrip(n: int)
    requires IsInt64(n)
    ensures ParseInt64(FormatInt(n)) == Ok(n)
  {
    FormatIntRoundTrip(n);
  }
}

=== FILE: util.dfy ===
/** Reading configuration from the process environment with defaults
    (util/util.go). The environment is an explicit map: a key is "set"
    exactly when it is in the map, whatever its value, including `""`. */
module Util {
  import opened Base
  import opened Decimal
  import opened Strconv

  type Env = map<Bytes, Bytes>

  /** The panic `EnvDefaultInt64` raises for a set but unparseable variable. */
  datatype DecodePanic = DecodePanic(key: Bytes, value: Bytes, err: NumErr)

  /** The variable's value when it is set (even to the empty string), the default otherwise. */
  function EnvDefault(env: Env, key: Bytes, default: Bytes): (r: Bytes)
    ensures key in env ==> r == env[key]
    ensures key !in env ==> r == default
  {
    if key in env then env[key] else default
  }

  /** The variable as a base-10 `int64` when set, the default when unset;
      a set value that does not parse aborts instead of falling back. */
  function EnvDefaultInt64(env: Env, key: Bytes, default: int): (r: Result<int, DecodePanic>)
    requires IsInt64(default)
    ensures key !in env ==> r == Ok(default)
    ensures key in env ==> (r.Ok? <==> IsSignedDecimal(env[key]) && IsInt64(SignedValue(env[key])))
    ensures key in env && r.Ok? ==> r.value == SignedValue(env[key])
    ensures r.Err? ==> key in env && r.error.key == key && r.error.value == env[key]
    ensures key in env && env[key] == [] ==> r == Err(DecodePanic(key, [], ErrSyntax))
    ensures key in env && (Unsigned(env[key]) == [] || HasSyntaxError(Unsigned(env[key]))) ==>
              r == Err(DecodePanic(key, env[key], ErrSyntax))
    ensures key in env && IsSignedDecimal(env[key]) && !IsInt64(SignedValue(env[key])) ==>
              r == Err(DecodePanic(key, env[key], ErrRange))
    ensures r.Ok? ==> IsInt64(r.value)
  {
    if key in env then
      match ParseInt64(env[key])
      case Ok(v) => Ok(v)
      case Err(e) => Err(DecodePanic(key, env[key], e))
    else
      Ok(default)
  }

  /** The integer reader is the text reader with the default rendered in
      decimal, then parsed: the same set/unset rule, and a parse error
      becomes the abort. */
  lemma EnvDefaultInt64ViaEnvDefault(env: Env, key: Bytes, default: int)
    requires IsInt64(default)
    ensures var text := EnvDefault(env, key, FormatInt(default));
            EnvDefaultInt64(env, key, default) ==
              match ParseInt64(text)
              case Ok(v) => Ok(v)
              case Err(e) => Err(DecodePanic(key, text, e))
  {
    ParseFormatRoundTrip(default);
  }

  /** A variable holding the `%d` rendering of an `int64` yields that value. */
  lemma EnvDefaultInt64Rendered(env: Env, key: Bytes, default: int, n: int)
    requires IsInt64(default) && IsInt64(n)
    requires key in env && env[key] == FormatInt(n)
    ensures EnvDefaultInt64(env, key, default) == Ok(n)
  {
    ParseFormatRoundTrip(n);
  }
}
